=== FILE: README.md ===
# VAR forecasting wrapper: the builder's decision logic, verified

This project models the part of the economic-forecasting repository that the
repository itself decides. The vector-autoregression (VAR) estimation is done by
statsmodels. Everything the wrapper computes around it is modelled:

- **Lag-order vote** (`VARModelBuilder.select_optimal_lag`). Every lag
  1..maxlags is fitted. Each of the four information criteria (AIC, BIC, FPE,
  HQIC) names the lag that minimises it. Python's `min` keeps the first
  minimum, so ties go to the smallest lag. The lag named by the most criteria
  is then stored as `optimal_lag`.
- **Builder state machine.** A builder is unfitted (`results = None`) until
  the library fit inside `fit_model` succeeds. The summary that `fit_model`
  prints afterwards can still raise, but the results stay stored. Each
  analysis call checks that state first.
  `fit_model` picks its lag in this order: an explicit argument, then the
  voted lag, then the default 2.
  - Diagnostics report `k_ar * k + k` parameters, where k is the number of
    variable columns.
  - A forecast of `steps` months has `steps` rows labelled 1..steps, with one
    column per variable.
  - `quick_forecast` chains construction, fitting and forecasting.
- **Post-processing in `utils`:**
  - forecasts at several horizons;
  - a scenario comparison whose entries all equal the 24-month base forecast;
  - confidence bands of constant width, point ± z·σ;
  - a quarterly summary that averages months 3q−2..3q into quarter q.

statsmodels is not part of this model. Its work enters only as function-typed
parameters, each returning `None` where the library raises:
- `Estimator`: a fit at one lag.
- `ForecastEngine`: the recursive forecast.
- `PeriodAnalysis`: the impulse-response and variance-decomposition routines.
- `Renderer`: the summary text, printed by `fit_model` and returned by
  `summary`.

A fitted results object is its lag order `k_ar` plus what the library reports
about the fit: its estimated coefficient matrices and its statistics. Data
frames are `Frames.Frame`: integer row labels, column labels, and rows of
`real` cells. The modules follow the source files:
- `LagSelection` and `VarModel` model `VAR/var_model.py`.
- `ForecastUtils` and `Quarterly` model `VAR/utils.py`.
- `Results` holds the error types; `Frames` holds the DataFrame helpers.

Four facts about the code shape the model:
- Ties in the vote go to whichever maximal lag CPython's set iteration reaches
  first.
- Scenario results ignore the shocks.
- The bands do not widen with the horizon.
- The builder is one value, updated by lag selection and fitting.

Python's integer floor division `//` by 3 equals Dafny's `/` by 3, because
both round down when the divisor is positive.

## Model

| member | source | states |
|---|---|---|
| `LagSelection.ArgMinPrefix` | VAR/var_model.py:82-85 | `min(..., key=...)` over the first n lags: the returned position has a score no larger than any lag's, and every earlier lag's score is strictly larger (first minimum wins) |
| `LagSelection.SuggestedLag` | VAR/var_model.py:65-85 | a criterion's suggestion is its first minimising lag in 1..\|table\|; an empty table (maxlags < 1) is an error, never a lag |
| `LagSelection.FirstArgMinUnique` | VAR/var_model.py:82-85 | the first-minimum lag of a criterion is unique, so the suggestion is determined by the scores |
| `LagSelection.CountsOfTwoValuesBounded` | VAR/var_model.py:88-89 | two different lags' counts in the suggestion list add up to at most its length |
| `LagSelection.MostFrequentPrefix` | VAR/var_model.py:89 | the value found is among the first n suggestions and no earlier suggestion occurs more often |
| `LagSelection.Vote` | VAR/var_model.py:88-89 | the optimal lag is one of the suggestions and no suggestion occurs more often than it |
| `LagSelection.StrongSuggestionWins` | VAR/var_model.py:88-89 | a lag suggested by at least three of the four criteria is always the one chosen |
| `LagSelection.SelectFromTable` | VAR/var_model.py:81-89 | on a non-empty table every suggestion is its criterion's first minimiser and the optimal lag is a most-suggested one; an empty table fails |
| `LagSelection.SuggestionIsFirstArgMin` | VAR/var_model.py:82-85 | in a valid selection each criterion's reported lag is its first minimiser |
| `LagSelection.OptimalLagInRange` | VAR/var_model.py:66-89 | the chosen lag lies within the tried lags 1..maxlags |
| `LagSelection.SelectionDeterminedByTable` | VAR/var_model.py:82-89 | two valid selections of one table report the same four suggestions, and the same optimal lag whenever three criteria agree |
| `Frames.SelectColumns` | VAR/var_model.py:41 | `data[variable_columns]` keeps the row labels and yields exactly the requested columns, in order, with each cell taken from the same-named source column; an absent column raises |
| `Frames.PySliceFrom` | VAR/var_model.py:171 | Python's `s[start:]` is a suffix; with -len ≤ start < 0 it has exactly -start elements, and a start beyond the front yields everything |
| `VarModel.NewBuilder` | VAR/var_model.py:21-41 | construction fails exactly when a chosen column is missing; otherwise results and optimal lag are unset, the columns default to gdp_growth, cpi_change, yield_spread, and `var_data` is the column selection |
| `VarModel.CriteriaResults` | VAR/var_model.py:65-73 | the table has one entry per lag 1..n holding that lag's four scores, and fails exactly when some lag's fit fails, reporting the first failing lag |
| `VarModel.SelectOptimalLag` | VAR/var_model.py:43-107 | maxlags < 1 fails; otherwise it succeeds exactly when every lag fits, records only `optimal_lag` in the builder, and returns a valid selection over the maxlags fitted score sets |
| `VarModel.SuggestionMinimisesFittedScores` | VAR/var_model.py:62-85 | each per-criterion lag and the optimal lag lie in [1, maxlags]; the criterion's lag minimises that criterion over all fitted lags, the smallest such lag on a tie |
| `VarModel.FitModel` | VAR/var_model.py:109-130 | a failing library fit raises and leaves the builder as it was; a successful one stores `results` with k_ar the resolved lag and changes nothing else; the call then raises exactly when the summary print fails, with the results still stored |
| `VarModel.FitModelLagPriority` | VAR/var_model.py:117-122 | a `fit_model` that returns normally has stored a fit whose lag is the explicit one, else the stored vote, else 2 |
| `VarModel.FitAfterSelectUsesVote` | VAR/var_model.py:89-122 | after `select_optimal_lag`, `fit_model()` with no argument fits the voted lag, which lies in 1..maxlags |
| `VarModel.GetModelDiagnostics` | VAR/var_model.py:132-152 | refuses exactly the unfitted builder; otherwise `num_params` = (k_ar + 1)·k for k variable columns, and the other entries are the fit's statistics |
| `VarModel.DiagnosticsOfFit` | VAR/var_model.py:127-149 | once the library fit in `fit_model` succeeds, even if its summary print then raises, diagnostics report that fit's statistics with `num_params` = lag·k + k |
| `VarModel.ForecastSeedIsTail` | VAR/var_model.py:171 | the forecast starts from exactly the last k_ar rows when 1 ≤ k_ar ≤ row count; with k_ar = 0 Python's `-0` slice gives all rows |
| `VarModel.Forecast` | VAR/var_model.py:154-186 | an unfitted builder raises; a success has exactly `steps` rows labelled 1..steps, the builder's columns in order, and the library's values from the k_ar-row seed; a raising library forecast, a wrongly shaped array, and a frame without columns (`describe()` raises) each fail |
| `VarModel.GetImpulseResponse` | VAR/var_model.py:188-209 | refuses the unfitted builder, fails when the library's routine raises, and otherwise reports the library's responses with the variable names and the period count |
| `VarModel.GetVarianceDecomposition` | VAR/var_model.py:211-229 | refuses the unfitted builder, fails when the library's routine raises, and otherwise returns the library's decomposition |
| `VarModel.Summary` | VAR/var_model.py:231-235 | an unfitted builder reports "Model not yet fitted"; a fitted one reports the library's summary, or fails where rendering raises |
| `VarModel.UnfittedBuilderRefusesAnalysis` | VAR/var_model.py:139-234 | with `results` unset, diagnostics, forecast, impulse response and decomposition all raise the not-fitted error and summary returns the fixed message |
| `VarModel.OnlyFitModelSetsResults` | VAR/var_model.py:36-130 | a new builder has no results, lag selection keeps results as they were, `fit_model` stores results whenever the library fit succeeds, and a failing library fit leaves the builder unchanged and raises |
| `VarModel.QuickForecast` | VAR/var_model.py:238-258 | a missing column fails; a success fitted and rendered the requested lag (2 when None) and has `steps` rows labelled 1..steps over the chosen columns; once the columns are found, a failing library fit gives `EstimationFailed(lag)`, a raising summary print gives `LibraryFailed`, and otherwise the result is the fitted builder's forecast |
| `VarModel.QuickForecastFitsRequestedLag` | VAR/var_model.py:254-256 | a quick forecast succeeds exactly when construction, the library fit at the requested lag, the summary print and the forecast all succeed, and it then equals the forecast of the fresh builder fitted at that lag |
| `ForecastUtils.CollectByKey` | VAR/utils.py:86-91 | the loop yields a map whose keys are exactly the distinct listed horizons, each mapped to its own result; it fails exactly when some horizon fails, with the first failure's error |
| `ForecastUtils.MultiStepForecast` | VAR/utils.py:75-91 | the keys are exactly the distinct horizons in `steps_list`, each mapped to the forecast of that many steps; the first failing forecast's error aborts |
| `ForecastUtils.MultiStepForecastShapes` | VAR/utils.py:86-91 | each entry has as many rows as its horizon, labelled 1..steps; an empty list succeeds even unfitted, a non-empty one on an unfitted builder raises |
| `ForecastUtils.ApplyShocks` | VAR/utils.py:118-123 | the shocked copy keeps labels and every row but the last; the last row of each column gains the sum of the shocks naming it, which for a dict is its one shock (`ShockedColumnGainsItsShock`); shocks to absent variables are skipped; an empty frame with a present variable raises |
| `ForecastUtils.AbsentShocksChangeNothing` | VAR/utils.py:121-123 | shocks naming no column leave the copy equal to the data |
| `ForecastUtils.UnshockedColumnKeepsLastValue` | VAR/utils.py:121-123 | on a non-empty frame the shock loop succeeds, and a column no shock names keeps its last value |
| `ForecastUtils.ShockTotalOfDistinctKeys` | VAR/utils.py:121-123 | when no name repeats, as in a dict, the total shock on a name is that name's one shock value |
| `ForecastUtils.ShockedColumnGainsItsShock` | VAR/utils.py:121-123 | on a non-empty frame with a dict of shocks, the last value of a column the dict names rises by exactly that shock |
| `ForecastUtils.CompareScenarios` | VAR/utils.py:94-133 | the keys are exactly 'base_case' plus the scenario names; every entry is the 24-step base forecast; a failing base forecast or shocking an empty frame aborts |
| `ForecastUtils.ShocksNeverInfluenceScenarios` | VAR/utils.py:112-131 | two scenario sets with the same names give the same comparison whatever their shock values, and every entry has 24 rows |
| `ForecastUtils.BandsAround` | VAR/utils.py:160-165 | lower = point − z·σⱼ and upper = point + z·σⱼ in every row, with the point's labels and columns |
| `ForecastUtils.ConfidenceIntervals` | VAR/utils.py:136-167 | fails exactly when the point forecast fails; otherwise returns that forecast and its bands |
| `ForecastUtils.BandsEnclosePoint` | VAR/utils.py:160-165 | with z ≥ 0 and σ ≥ 0, lower ≤ point ≤ upper everywhere, and the point is the bands' midpoint |
| `ForecastUtils.BandWidthIndependentOfHorizon` | VAR/utils.py:158-165 | a variable's band width is 2·z·σⱼ at every horizon and for every requested number of steps |
| `Quarterly.QuarterOfMonths` | VAR/utils.py:185 | label m falls in quarter q exactly when 3q−2 ≤ m ≤ 3q |
| `Quarterly.SortedDistinct` | VAR/utils.py:187 | the group keys are strictly increasing and are exactly the quarters that occur |
| `Quarterly.StrictlyIncreasingUnique` | VAR/utils.py:187 | the sorted key sequence is fixed by the set of quarters present |
| `Quarterly.GroupOfMonthlyRows` | VAR/utils.py:185-187 | for rows labelled 1..n, quarter q's group is exactly months 3q−2..3q that exist |
| `Quarterly.QuarterlyMeans` | VAR/utils.py:184-188 | one row per present quarter in ascending order, over the forecast's columns, each the column means of that quarter's rows |
| `Quarterly.SummaryGroupsNonEmpty` | VAR/utils.py:187 | every quarter in the summary averages at least one month |
| `Quarterly.SummaryTable` | VAR/utils.py:170-190 | with `quarters` false or fewer than 3 rows the forecast is returned unchanged, otherwise the quarterly means |
| `Quarterly.MonthlyQuarterKeys` | VAR/utils.py:185-187 | months 1..n yield quarters 1..⌈n/3⌉, in order |
| `Quarterly.MonthlySummaryQuarters` | VAR/utils.py:182-188 | a forecast of n ≥ 3 months labelled 1..n summarises to ⌈n/3⌉ quarters labelled 1.., and quarter q is the column mean of months 3q−2..min(3q, n) |

## Left out

- statsmodels: VAR construction, least-squares fitting, the criterion values,
  the recursive forecast, impulse responses, variance decomposition and the
  summary text. The library's code is not part of this model, so these are
  function parameters. The model assumes two things about the library. First,
  a fit at lag p reports `k_ar = p`. Second, the fitted results object is
  determined by its lag order, its coefficient matrices and its reported
  statistics. Every other library attribute is not modelled.
- The residual standard deviation and the normal quantile
  `stats.norm.ppf((1 + confidence) / 2)` are floating-point library calls.
  They enter `ConfidenceIntervals` as `residualStd` and `z`. A confidence in
  [0, 1) gives a finite z ≥ 0, which is the hypothesis of `BandsEnclosePoint`.
  A confidence of 1 gives an infinite z, and one above 1 gives NaN. Neither is
  modelled.
- Floating point in general. Cells are `real`, so NaN, rounding, and pandas'
  NaN-skipping `mean` are not modelled.
- Printing and console output throughout.
- Pickle, JSON and Excel persistence and export (`save_model`, `load_model`,
  `save_forecast_report`, `export_forecast_to_excel`). This is I/O.
- The `self.model` attribute set by `fit_model`. It is a library object that no
  modelled call reads.
- Data loading and transformation (`data_preparation.py`), the menus and scripts
  (`interactive_exploration.py`, `run_var_model.py`, `00_START_HERE.py`), and
  the top-level `models.py`, `Joins.py` and `Analysis.py`. These are I/O,
  plotting and console work.
- `run_var_model.py:133-134` prints a parameter count of k²·p + k. That differs
  from `get_model_diagnostics`. The model follows `var_model.py:149` and does
  not reconcile the two.
- LagSelection.Vote: its contract states only that the chosen lag is a suggestion
  of maximal count. CPython's `max(set(...), key=count)` breaks ties by set
  iteration order, which is not modelled. The body picks the earliest
  suggestion of maximal count.
- ForecastUtils.ApplyShocks: it models the shock as applied to the copy.
  Whether pandas' chained `scenario_data[var].iloc[-1] += v` writes through
  depends on the pandas copy-on-write mode. Either way the copy is discarded
  and `base_data` is never touched. In this value model that second point holds
  by construction.
- Shock dicts. `ApplyShocks` and `CompareScenarios` take the source's
  `shocks` and `shock_scenarios` dicts as sequences of (key, value) pairs.
  Python dict keys are distinct, which `DistinctKeys` states. The functions
  themselves accept repeated keys too and then add every shock naming a
  column.
- Frames whose column labels repeat. Name lookup in `SelectColumns` and
  `ApplyShocks` uses the first matching label. `ApplyShocks` requires distinct
  labels.
- ForecastUtils.ConfidenceIntervals: σ is given per column position. The
  source subtracts the margin by label, pairing each residual column with the
  forecast column of the same name. The two agree because the residual
  columns are the variable columns in the same order.
- ForecastUtils.MultiStepForecast and ForecastUtils.CompareScenarios return
  maps, so the key order of the source's dicts is dropped. The callers only
  iterate them to print.
- Quarterly.SummaryTable: a forecast that already has a column named `quarter`
  is not modelled. The source would overwrite that column with the grouping key.

=== FILE: forecast_utils.dfy ===
/** Forecast post-processing helpers: several horizons at once, shock scenarios, and
    constant-width confidence bands. */
module ForecastUtils {
  import opened Results
  import opened Frames
  import opened VarModel

  /** Horizon `compare_scenarios` forecasts over. */
  const ScenarioSteps: int := 24
  const BaseCaseKey: string := "base_case"

  /** The loop of `multi_step_forecast` over any per-key producer: keys in list order,
      a repeated key overwritten by its later (equal) value, the first failure aborting. */
  function CollectByKey<V>(keys: seq<int>, produce: int -> Result<V>): (r: Result<map<int, V>>)
    ensures r.Ok? <==> forall i :: 0 <= i < |keys| ==> produce(keys[i]).Ok?
    ensures r.Ok? ==> r.value.Keys == set s | s in keys
    ensures r.Ok? ==> forall s :: s in r.value ==> produce(s) == Ok(r.value[s])
    ensures r.Err? ==> exists i :: && 0 <= i < |keys|
                                   && produce(keys[i]) == Err(r.error)
                                   && forall j :: 0 <= j < i ==> produce(keys[j]).Ok?
    decreases |keys|
  {
    if |keys| == 0 then Ok(map[])
    else
      var n := |keys|;
      var prefix := keys[..n - 1];
      assert forall i :: 0 <= i < n - 1 ==> prefix[i] == keys[i];
      match CollectByKey(prefix, produce)
      case Err(e) => Err(e)
      case Ok(m) =>
        var s := keys[n - 1];
        match produce(s)
        case Err(e) =>
          assert produce(keys[n - 1]) == Err(e) && forall j :: 0 <= j < n - 1 ==> produce(keys[j]).Ok?;
          Err(e)
        case Ok(v) =>
          assert (set x | x in keys) == (set x | x in prefix) + {s} by {
            assert keys == prefix + [s];
          }
          Ok(m[s := v])
  }

  /** `multi_step_forecast(model, steps_list)`: one forecast per listed horizon, keyed by
      the horizon; the first failing forecast aborts the loop. */
  function MultiStepForecast(b: Builder, stepsList: seq<int>, engine: ForecastEngine): (r: Result<map<int, Frame>>)
    ensures r.Ok? <==> forall i :: 0 <= i < |stepsList| ==> Forecast(b, stepsList[i], engine).Ok?
    ensures r.Ok? ==> r.value.Keys == set s | s in stepsList
    ensures r.Ok? ==> forall s :: s in r.value ==> Forecast(b, s, engine) == Ok(r.value[s])
    ensures r.Err? ==> exists i :: && 0 <= i < |stepsList|
                                   && Forecast(b, stepsList[i], engine) == Err(r.error)
                                   && forall j :: 0 <= j < i ==> Forecast(b, stepsList[j], engine).Ok?
  {
    CollectByKey(stepsList, s => Forecast(b, s, engine))
  }

  /** Every horizon's entry has that many rows labelled 1..steps, over the builder's
      columns; an empty list succeeds even before fitting, and a non-empty one does not. */
  lemma MultiStepForecastShapes(b: Builder, stepsList: seq<int>, engine: ForecastEngine)
    ensures var r := MultiStepForecast(b, stepsList, engine);
            r.Ok? ==> forall s :: s in r.value ==>
                        && |r.value[s].rows| == (if s < 0 then 0 else s)
                        && r.value[s].index == Range(1, s)
                        && r.value[s].columns == b.columns
    ensures |stepsList| == 0 ==> MultiStepForecast(b, stepsList, engine) == Ok(map[])
    ensures |stepsList| > 0 && b.results.None? ==> MultiStepForecast(b, stepsList, engine) == Err(NotFitted)
  {
  }

  /** Sum of the shock values aimed at column `name`, in dictionary order. */
  function ShockTotal(shocks: seq<(string, real)>, name: string): real {
    if |shocks| == 0 then 0.0
    else ShockTotal(shocks[..|shocks| - 1], name) + (if shocks[|shocks| - 1].0 == name then shocks[|shocks| - 1].1 else 0.0)
  }

  /** The shock loop of `compare_scenarios` on its copy of the data: each shock whose
      variable is a column is added to that column's last row; other variables are
      skipped. `.iloc[-1]` on an empty frame raises. */
  function ApplyShocks(data: Frame, shocks: seq<(string, real)>): (r: Result<Frame>)
    requires WellFormed(data) && Distinct(data.columns)
    ensures r.Err? <==> |data.rows| == 0 && exists k :: 0 <= k < |shocks| && shocks[k].0 in data.columns
    ensures r.Err? ==> r.error == PositionOutOfBounds
    ensures r.Ok? ==> && WellFormed(r.value)
                      && r.value.index == data.index
                      && r.value.columns == data.columns
                      && |r.value.rows| == |data.rows|
    ensures r.Ok? ==> forall i :: 0 <= i < |data.rows| - 1 ==> r.value.rows[i] == data.rows[i]
    ensures r.Ok? && |data.rows| > 0 ==>
              forall j :: 0 <= j < |data.columns| ==>
                r.value.rows[|data.rows| - 1][j] == data.rows[|data.rows| - 1][j] + ShockTotal(shocks, data.columns[j])
    decreases |shocks|
  {
    if |shocks| == 0 then Ok(data)
    else
      var prefix := shocks[..|shocks| - 1];
      match ApplyShocks(data, prefix)
      case Err(e) => Err(e)
      case Ok(d) =>
        var (name, v) := shocks[|shocks| - 1];
        if name !in d.columns then Ok(d)
        else if |d.rows| == 0 then Err(PositionOutOfBounds)
        else
          var j := IndexOf(d.columns, name);
          var last := |d.rows| - 1;
          Ok(d.(rows := d.rows[last := d.rows[last][j := d.rows[last][j] + v]]))
  }

  /** Shocks to variables that are not columns leave the copy equal to the data. */
  lemma {:induction false} AbsentShocksChangeNothing(data: Frame, shocks: seq<(string, real)>)
    requires WellFormed(data) && Distinct(data.columns)
    requires forall k :: 0 <= k < |shocks| ==> shocks[k].0 !in data.columns
    ensures ApplyShocks(data, shocks) == Ok(data)
  {
    if |shocks| > 0 {
      var prefix := shocks[..|shocks| - 1];
      assert forall k :: 0 <= k < |prefix| ==> prefix[k] == shocks[k];
      AbsentShocksChangeNothing(data, prefix);
    }
  }

  lemma {:induction false} ShockTotalOfAbsentName(shocks: seq<(string, real)>, name: string)
    requires forall k :: 0 <= k < |shocks| ==> shocks[k].0 != name
    ensures ShockTotal(shocks, name) == 0.0
  {
    if |shocks| > 0 {
      ShockTotalOfAbsentName(shocks[..|shocks| - 1], name);
    }
  }

  /** A column no shock names keeps its last value: the shock loop touches only the
      columns it names. */
  lemma UnshockedColumnKeepsLastValue(data: Frame, shocks: seq<(string, real)>, j: int)
    requires WellFormed(data) && Distinct(data.columns)
    requires 0 <= j < |data.columns| && |data.rows| > 0
    requires forall k :: 0 <= k < |shocks| ==> shocks[k].0 != data.columns[j]
    ensures ApplyShocks(data, shocks).Ok?
    ensures ApplyShocks(data, shocks).value.rows[|data.rows| - 1][j] == data.rows[|data.rows| - 1][j]
  {
    ShockTotalOfAbsentName(shocks, data.columns[j]);
  }

  /** The shocks stand for a dict from variable name to shock, so no name repeats. */
  predicate DistinctKeys(shocks: seq<(string, real)>) {
    forall a, b :: 0 <= a < b < |shocks| ==> shocks[a].0 != shocks[b].0
  }

  lemma {:induction false} ShockTotalOfDistinctKeys(shocks: seq<(string, real)>, k: int)
    requires DistinctKeys(shocks) && 0 <= k < |shocks|
    ensures ShockTotal(shocks, shocks[k].0) == shocks[k].1
  {
    var prefix := shocks[..|shocks| - 1];
    if k == |shocks| - 1 {
      ShockTotalOfAbsentName(prefix, shocks[k].0);
    } else {
      ShockTotalOfDistinctKeys(prefix, k);
    }
  }

  /** With a dict of shocks, the last value of a column the dict names gains exactly
      that name's shock. */
  lemma ShockedColumnGainsItsShock(data: Frame, shocks: seq<(string, real)>, j: int, k: int)
    requires WellFormed(data) && Distinct(data.columns) && DistinctKeys(shocks)
    requires 0 <= j < |data.columns| && |data.rows| > 0
    requires 0 <= k < |shocks| && shocks[k].0 == data.columns[j]
    ensures ApplyShocks(data, shocks).Ok?
    ensures ApplyShocks(data, shocks).value.rows[|data.rows| - 1][j] == data.rows[|data.rows| - 1][j] + shocks[k].1
  {
    ShockTotalOfDistinctKeys(shocks, k);
  }

  /** The set of scenario names, the keys of `shock_scenarios`. */
  function ScenarioNames(scenarios: seq<(string, seq<(string, real)>)>): set<string> {
    set k | 0 <= k < |scenarios| :: scenarios[k].0
  }

  /** A map sending every key of `keys` to `v`. */
  function ConstantMap<K, V>(keys: set<K>, v: V): (m: map<K, V>)
    ensures m.Keys == keys && forall k :: k in m ==> m[k] == v
  {
    map k | k in keys :: v
  }

  /** `compare_scenarios(base_data, shock_scenarios, model)`: the 24-step base forecast
      under 'base_case' and under every scenario name, and no other key. Each scenario
      shocks its own copy of `base_data`; the only way a shock matters is the IndexError
      of shocking an empty frame, which aborts the whole comparison. */
  function CompareScenarios(baseData: Frame, scenarios: seq<(string, seq<(string, real)>)>,
                            b: Builder, engine: ForecastEngine): (r: Result<map<string, Frame>>)
    requires WellFormed(baseData) && Distinct(baseData.columns)
    ensures Forecast(b, ScenarioSteps, engine).Err? ==> r == Err(Forecast(b, ScenarioSteps, engine).error)
    ensures Forecast(b, ScenarioSteps, engine).Ok? ==>
              (r.Ok? <==> forall k :: 0 <= k < |scenarios| ==> ApplyShocks(baseData, scenarios[k].1).Ok?)
    ensures Forecast(b, ScenarioSteps, engine).Ok? && r.Err? ==> r.error == PositionOutOfBounds
    ensures r.Ok? ==> && Forecast(b, ScenarioSteps, engine).Ok?
                      && r.value.Keys == {BaseCaseKey} + ScenarioNames(scenarios)
                      && forall name :: name in r.value ==> r.value[name] == Forecast(b, ScenarioSteps, engine).value
  {
    match Forecast(b, ScenarioSteps, engine)
    case Err(e) => Err(e)
    case Ok(base) =>
      if forall k :: 0 <= k < |scenarios| ==> ApplyShocks(baseData, scenarios[k].1).Ok? then
        Ok(ConstantMap({BaseCaseKey} + ScenarioNames(scenarios), base))
      else
        Err(PositionOutOfBounds)
  }

  /** The shock values never reach the results: scenarios with the same names give the
      same comparison whatever their shocks, and every entry has 24 rows. */
  lemma ShocksNeverInfluenceScenarios(baseData: Frame, s1: seq<(string, seq<(string, real)>)>,
                                      s2: seq<(string, seq<(string, real)>)>, b: Builder, engine: ForecastEngine)
    requires WellFormed(baseData) && Distinct(baseData.columns)
    requires ScenarioNames(s1) == ScenarioNames(s2)
    ensures CompareScenarios(baseData, s1, b, engine).Ok? && CompareScenarios(baseData, s2, b, engine).Ok? ==>
              CompareScenarios(baseData, s1, b, engine) == CompareScenarios(baseData, s2, b, engine)
    ensures CompareScenarios(baseData, s1, b, engine).Ok? ==>
              forall name :: name in CompareScenarios(baseData, s1, b, engine).value ==>
                |CompareScenarios(baseData, s1, b, engine).value[name].rows| == ScenarioSteps
  {
    if CompareScenarios(baseData, s1, b, engine).Ok? && CompareScenarios(baseData, s2, b, engine).Ok? {
      var m1 := CompareScenarios(baseData, s1, b, engine).value;
      var m2 := CompareScenarios(baseData, s2, b, engine).value;
      assert m1.Keys == m2.Keys;
      assert forall name :: name in m1 ==> m1[name] == m2[name];
      assert m1 == m2;
    }
  }

  /** The three frames `calculate_forecast_confidence_intervals` returns. */
  datatype Bands = Bands(point: Frame, lower: Frame, upper: Frame)

  /** `point - margin` (or `+`): the per-column offset added to every row. */
  function OffsetRows(f: Frame, delta: seq<real>): (r: Frame)
    requires WellFormed(f) && |delta| == |f.columns|
    ensures WellFormed(r) && r.index == f.index && r.columns == f.columns && |r.rows| == |f.rows|
    ensures forall i, j :: 0 <= i < |f.rows| && 0 <= j < |f.columns| ==> r.rows[i][j] == f.rows[i][j] + delta[j]
  {
    f.(rows := seq(|f.rows|, i requires 0 <= i < |f.rows| =>
                   seq(|f.columns|, j requires 0 <= j < |f.columns| => f.rows[i][j] + delta[j])))
  }

  /** The bands around a point forecast: point -/+ z * std, one margin per variable and
      the same margin at every horizon. */
  function BandsAround(point: Frame, z: real, residualStd: seq<real>): (r: Bands)
    requires WellFormed(point) && |residualStd| == |point.columns|
    ensures r.point == point
    ensures WellFormed(r.lower) && WellFormed(r.upper)
    ensures r.lower.index == point.index && r.upper.index == point.index
    ensures r.lower.columns == point.columns && r.upper.columns == point.columns
    ensures |r.lower.rows| == |point.rows| && |r.upper.rows| == |point.rows|
    ensures forall i, j :: 0 <= i < |point.rows| && 0 <= j < |point.columns| ==>
              && r.lower.rows[i][j] == point.rows[i][j] - z * residualStd[j]
              && r.upper.rows[i][j] == point.rows[i][j] + z * residualStd[j]
  {
    var margin := seq(|residualStd|, j requires 0 <= j < |residualStd| => z * residualStd[j]);
    var negated := seq(|residualStd|, j requires 0 <= j < |residualStd| => -margin[j]);
    Bands(point, OffsetRows(point, negated), OffsetRows(point, margin))
  }

  /** `calculate_forecast_confidence_intervals(model, steps, confidence)` with the normal
      quantile `z` and the residual standard deviations taken as given. */
  function ConfidenceIntervals(b: Builder, steps: int, engine: ForecastEngine, z: real, residualStd: seq<real>)
    : (r: Result<Bands>)
    requires |residualStd| == |b.columns|
    ensures r.Err? <==> Forecast(b, steps, engine).Err?
    ensures r.Err? ==> r.error == Forecast(b, steps, engine).error
    ensures r.Ok? ==> && WellFormed(r.value.point)
                      && r.value.point == Forecast(b, steps, engine).value
                      && r.value == BandsAround(r.value.point, z, residualStd)
  {
    match Forecast(b, steps, engine)
    case Err(e) => Err(e)
    case Ok(point) => Ok(BandsAround(point, z, residualStd))
  }

  /** With a non-negative quantile and non-negative deviations the bands enclose the point
      forecast, and the point forecast is their midpoint. */
  lemma BandsEnclosePoint(point: Frame, z: real, residualStd: seq<real>)
    requires WellFormed(point) && |residualStd| == |point.columns|
    requires z >= 0.0 && forall j :: 0 <= j < |residualStd| ==> residualStd[j] >= 0.0
    ensures var bands := BandsAround(point, z, residualStd);
            forall i, j :: 0 <= i < |point.rows| && 0 <= j < |point.columns| ==>
              && bands.lower.rows[i][j] <= point.rows[i][j] <= bands.upper.rows[i][j]
              && (bands.lower.rows[i][j] + bands.upper.rows[i][j]) / 2.0 == point.rows[i][j]
  {
  }

  /** The band width of a variable is the same at every horizon and for every requested
      number of steps: it does not grow with the horizon. */
  lemma BandWidthIndependentOfHorizon(b: Builder, steps1: int, steps2: int, engine: ForecastEngine,
                                      z: real, residualStd: seq<real>, i1: int, i2: int, j: int)
    requires |residualStd| == |b.columns|
    requires ConfidenceIntervals(b, steps1, engine, z, residualStd).Ok?
    requires ConfidenceIntervals(b, steps2, engine, z, residualStd).Ok?
    requires 0 <= i1 < |ConfidenceIntervals(b, steps1, engine, z, residualStd).value.point.rows|
    requires 0 <= i2 < |ConfidenceIntervals(b, steps2, engine, z, residualStd).value.point.rows|
    requires 0 <= j < |b.columns|
    ensures var b1 := ConfidenceIntervals(b, steps1, engine, z, residualStd).value;
            var b2 := ConfidenceIntervals(b, steps2, engine, z, residualStd).value;
            && b1.upper.rows[i1][j] - b1.lower.rows[i1][j] == 2.0 * z * residualStd[j]
            && b1.upper.rows[i1][j] - b1.lower.rows[i1][j] == b2.upper.rows[i2][j] - b2.lower.rows[i2][j]
  {
    var b1 := ConfidenceIntervals(b, steps1, engine, z, residualStd).value;
    var b2 := ConfidenceIntervals(b, steps2, engine, z, residualStd).value;
    assert b1.point.columns == b.columns && b2.point.columns == b.columns;
  }
}

=== FILE: frames.dfy ===
/** A pandas DataFrame of real values, reduced to what the wrapper touches:
    an integer index label per row, a label per column, and the cell values. */
module Frames {
  import opened Results

  datatype Frame = Frame(index: seq<int>, columns: seq<string>, rows: seq<seq<real>>)

  /** A DataFrame is rectangular: one index label and one cell per column in every row. */
  predicate WellFormed(f: Frame) {
    && |f.index| == |f.rows|
    && Rectangular(f.rows, |f.columns|)
  }

  /** Every row has `width` cells. */
  predicate Rectangular(rows: seq<seq<real>>, width: int) {
    forall i :: 0 <= i < |rows| ==> |rows[i]| == width
  }

  /** No label occurs twice, so looking a column up by name is unambiguous. */
  predicate Distinct<T(==)>(xs: seq<T>) {
    forall i, j :: 0 <= i < j < |xs| ==> xs[i] != xs[j]
  }

  /** The integers lo, lo + 1, ..., hi (empty when hi < lo), like `range(lo, hi + 1)`. */
  function Range(lo: int, hi: int): (r: seq<int>)
    ensures |r| == if hi < lo then 0 else hi - lo + 1
    ensures forall i :: 0 <= i < |r| ==> r[i] == lo + i
  {
    seq(if hi < lo then 0 else hi - lo + 1, i => lo + i)
  }

  /** Position of the first occurrence of `x`. */
  function IndexOf<T(==)>(xs: seq<T>, x: T): (k: nat)
    requires x in xs
    ensures k < |xs| && xs[k] == x
    ensures forall i :: 0 <= i < k ==> xs[i] != x
  {
    if xs[0] == x then 0 else 1 + IndexOf(xs[1..], x)
  }

  /** `f[names]`: the listed columns, in the listed order; KeyError when one is absent. */
  function SelectColumns(f: Frame, names: seq<string>): (r: Result<Frame>)
    requires WellFormed(f)
    ensures r.Err? <==> exists n :: n in names && n !in f.columns
    ensures r.Err? ==> r.error == MissingColumn
    ensures r.Ok? ==> WellFormed(r.value)
    ensures r.Ok? ==> r.value.index == f.index && r.value.columns == names && |r.value.rows| == |f.rows|
    ensures r.Ok? ==> forall i, j :: 0 <= i < |f.rows| && 0 <= j < |names| ==>
                        names[j] in f.columns && r.value.rows[i][j] == f.rows[i][IndexOf(f.columns, names[j])]
  {
    if exists n :: n in names && n !in f.columns then Err(MissingColumn)
    else
      Ok(Frame(f.index, names,
               seq(|f.rows|, i requires 0 <= i < |f.rows| =>
                 seq(|names|, j requires 0 <= j < |names| => f.rows[i][IndexOf(f.columns, names[j])]))))
  }

  /** Python's `s[start:]` for any integer `start`: a negative start counts from the end and
      is clipped at the front, a positive one is clipped at the back. */
  function PySliceFrom<T>(s: seq<T>, start: int): (r: seq<T>)
    ensures |r| <= |s| && r == s[|s| - |r|..]
    ensures start < 0 && -start <= |s| ==> |r| == -start
    ensures 0 <= start <= |s| ==> |r| == |s| - start
    ensures start < 0 && -start > |s| ==> r == s
    ensures start > |s| ==> r == []
  {
    if start < 0 then s[(if |s| + start < 0 then 0 else |s| + start)..]
    else s[(if start > |s| then |s| else start)..]
  }
}

=== FILE: lag_selection.dfy ===
/** The lag-order vote of `select_optimal_lag`: for each of four information criteria the
    lag with the smallest score, then the lag suggested by the most criteria. The scores
    themselves come from the estimation library and are taken as given. */
module LagSelection {
  import opened Results

  /** The four information-criterion scores of one fitted lag order. */
  datatype Scores = Scores(aic: real, bic: real, fpe: real, hqic: real)

  datatype Criterion = Aic | Bic | Fpe | Hqic

  function Score(s: Scores, c: Criterion): real {
    match c
    case Aic => s.aic
    case Bic => s.bic
    case Fpe => s.fpe
    case Hqic => s.hqic
  }

  /** Entry i holds the scores of lag i + 1, in the order the lags were tried. */
  type CriteriaTable = seq<Scores>

  /** `lag` (1-based) attains the minimum of criterion `c` over the table, and no smaller
      lag attains it. */
  predicate IsFirstArgMin(t: CriteriaTable, c: Criterion, lag: int) {
    && 1 <= lag <= |t|
    && (forall i :: 0 <= i < |t| ==> Score(t[lag - 1], c) <= Score(t[i], c))
    && (forall i :: 0 <= i < lag - 1 ==> Score(t[lag - 1], c) < Score(t[i], c))
  }

  /** Python's `min(..., key=...)` over the first n entries: the running best is replaced
      only by a strictly smaller score. Returns a 0-based position. */
  function ArgMinPrefix(t: CriteriaTable, c: Criterion, n: nat): (k: nat)
    requires 1 <= n <= |t|
    ensures k < n
    ensures forall i :: 0 <= i < n ==> Score(t[k], c) <= Score(t[i], c)
    ensures forall i :: 0 <= i < k ==> Score(t[k], c) < Score(t[i], c)
  {
    if n == 1 then 0
    else
      var best := ArgMinPrefix(t, c, n - 1);
      if Score(t[n - 1], c) < Score(t[best], c) then n - 1 else best
  }

  /** The lag criterion `c` recommends; `min` of an empty dict raises. */
  function SuggestedLag(t: CriteriaTable, c: Criterion): (r: Result<int>)
    ensures r.Err? <==> |t| == 0
    ensures r.Err? ==> r.error == EmptyCriteriaTable
    ensures r.Ok? ==> IsFirstArgMin(t, c, r.value)
  {
    if |t| == 0 then Err(EmptyCriteriaTable) else Ok(ArgMinPrefix(t, c, |t|) + 1)
  }

  /** The first-minimum lag of a criterion is unique. */
  lemma FirstArgMinUnique(t: CriteriaTable, c: Criterion, a: int, b: int)
    requires IsFirstArgMin(t, c, a) && IsFirstArgMin(t, c, b)
    ensures a == b
  {
    var sa, sb := Score(t[a - 1], c), Score(t[b - 1], c);
    assert a < b ==> sb < sa;
    assert b < a ==> sa < sb;
  }

  /** `list.count(x)`. */
  function Count(s: seq<int>, x: int): (n: nat)
    ensures n <= |s|
  {
    if |s| == 0 then 0 else (if s[0] == x then 1 else 0) + Count(s[1..], x)
  }

  lemma {:induction false} CountPositiveIsMember(s: seq<int>, x: int)
    requires Count(s, x) > 0
    ensures x in s
  {
    if s[0] != x {
      CountPositiveIsMember(s[1..], x);
    }
  }

  /** Two different values share the list: their counts add up to at most its length. */
  lemma {:induction false} CountsOfTwoValuesBounded(s: seq<int>, x: int, y: int)
    requires x != y
    ensures Count(s, x) + Count(s, y) <= |s|
  {
    if |s| > 0 {
      CountsOfTwoValuesBounded(s[1..], x, y);
    }
  }

  /** A value of maximal count among the first n entries, scanning left to right and
      switching only on a strictly larger count. */
  function MostFrequentPrefix(s: seq<int>, n: nat): (r: int)
    requires 1 <= n <= |s|
    ensures r in s[..n]
    ensures forall i :: 0 <= i < n ==> Count(s, s[i]) <= Count(s, r)
  {
    if n == 1 then s[0]
    else
      var best := MostFrequentPrefix(s, n - 1);
      assert best in s[..n] by { assert s[..n - 1] <= s[..n]; }
      if Count(s, s[n - 1]) > Count(s, best) then s[n - 1] else best
  }

  /** `max(set(s), key=s.count)`: some suggestion that no other suggestion outnumbers.
      Which one among equally frequent values is left to the body. */
  function Vote(s: seq<int>): (r: int)
    requires |s| > 0
    ensures r in s
    ensures forall x :: x in s ==> Count(s, x) <= Count(s, r)
  {
    var r := MostFrequentPrefix(s, |s|);
    assert s[..|s|] == s;
    r
  }

  /** A value suggested by at least three of four criteria is always the vote. */
  lemma StrongSuggestionWins(s: seq<int>, x: int)
    requires |s| == 4 && Count(s, x) >= 3
    ensures Vote(s) == x
  {
    var r := Vote(s);
    if r != x {
      CountPositiveIsMember(s, x);
      CountsOfTwoValuesBounded(s, x, r);
      assert false;
    }
  }

  /** What `select_optimal_lag` returns, apart from printing. */
  datatype Selection = Selection(optimal: int, table: CriteriaTable,
                                 aicLag: int, bicLag: int, fpeLag: int, hqicLag: int)
  {
    /** `lag_suggestions`, in the order the source lists them. */
    function Suggestions(): seq<int> {
      [aicLag, bicLag, fpeLag, hqicLag]
    }

    /** The lag criterion `c` recommended. */
    function Suggestion(c: Criterion): int {
      match c
      case Aic => aicLag
      case Bic => bicLag
      case Fpe => fpeLag
      case Hqic => hqicLag
    }
  }

  /** A selection honours its table: each criterion's lag is that criterion's first
      minimiser, and the optimal lag is a suggestion no other suggestion outnumbers. */
  predicate ValidSelection(t: CriteriaTable, sel: Selection) {
    && sel.table == t
    && IsFirstArgMin(t, Aic, sel.aicLag)
    && IsFirstArgMin(t, Bic, sel.bicLag)
    && IsFirstArgMin(t, Fpe, sel.fpeLag)
    && IsFirstArgMin(t, Hqic, sel.hqicLag)
    && sel.optimal in sel.Suggestions()
    && forall x :: x in sel.Suggestions() ==> Count(sel.Suggestions(), x) <= Count(sel.Suggestions(), sel.optimal)
  }

  /** The decision part of `select_optimal_lag`, given the filled criteria table. */
  function SelectFromTable(t: CriteriaTable): (r: Result<Selection>)
    ensures r.Err? <==> |t| == 0
    ensures r.Err? ==> r.error == EmptyCriteriaTable
    ensures r.Ok? ==> ValidSelection(t, r.value)
  {
    if |t| == 0 then Err(EmptyCriteriaTable)
    else
      var aic := SuggestedLag(t, Aic).value;
      var bic := SuggestedLag(t, Bic).value;
      var fpe := SuggestedLag(t, Fpe).value;
      var hqic := SuggestedLag(t, Hqic).value;
      Ok(Selection(Vote([aic, bic, fpe, hqic]), t, aic, bic, fpe, hqic))
  }

  /** In a valid selection every criterion's suggestion is its first minimiser. */
  lemma SuggestionIsFirstArgMin(t: CriteriaTable, sel: Selection, c: Criterion)
    requires ValidSelection(t, sel)
    ensures IsFirstArgMin(t, c, sel.Suggestion(c))
  {
  }

  /** The chosen lag is one of the tried lags 1..|t|. */
  lemma OptimalLagInRange(t: CriteriaTable, sel: Selection)
    requires ValidSelection(t, sel)
    ensures 1 <= sel.optimal <= |t|
  {
  }

  /** Any two valid selections of one table agree on all four suggestions, and so on the
      optimal lag whenever three criteria agree. */
  lemma SelectionDeterminedByTable(t: CriteriaTable, a: Selection, b: Selection)
    requires ValidSelection(t, a) && ValidSelection(t, b)
    ensures a.Suggestions() == b.Suggestions()
    ensures (exists x :: x in a.Suggestions() && Count(a.Suggestions(), x) >= 3) ==> a.optimal == b.optimal
  {
    FirstArgMinUnique(t, Aic, a.aicLag, b.aicLag);
    FirstArgMinUnique(t, Bic, a.bicLag, b.bicLag);
    FirstArgMinUnique(t, Fpe, a.fpeLag, b.fpeLag);
    FirstArgMinUnique(t, Hqic, a.hqicLag, b.hqicLag);
    var s := a.Suggestions();
    if x :| x in s && Count(s, x) >= 3 {
      forall v | v in s && v != x
        ensures Count(s, v) < Count(s, x)
      {
        CountsOfTwoValuesBounded(s, x, v);
      }
      assert a.optimal == x && b.optimal == x;
    }
  }
}

=== FILE: quarterly.dfy ===
/** `create_forecast_summary_table`: monthly forecast rows averaged per quarter, where the
    row labelled m belongs to quarter (m - 1) // 3 + 1 and quarters come out in ascending
    order. */
module Quarterly {
  import opened Frames

  /** Python's `(m - 1) // 3 + 1`. Dafny's `/` rounds down for a positive divisor, as
      Python's `//` does, so negative labels agree too. */
  function QuarterOf(m: int): int {
    (m - 1) / 3 + 1
  }

  /** Quarter q holds exactly the labels 3q - 2, 3q - 1 and 3q. */
  lemma QuarterOfMonths(m: int, q: int)
    ensures QuarterOf(m) == q <==> 3 * q - 2 <= m <= 3 * q
  {
    var d := (m - 1) / 3;
    assert 3 * d <= m - 1 < 3 * d + 3;
  }

  predicate StrictlyIncreasing(s: seq<int>) {
    forall i, j :: 0 <= i < j < |s| ==> s[i] < s[j]
  }

  function SeqMin(xs: seq<int>): (m: int)
    requires |xs| > 0
    ensures m in xs && forall x :: x in xs ==> m <= x
  {
    if |xs| == 1 then xs[0]
    else
      var rest := SeqMin(xs[1..]);
      assert xs == [xs[0]] + xs[1..];
      if xs[0] <= rest then xs[0] else rest
  }

  function RemoveAll(xs: seq<int>, v: int): (r: seq<int>)
    ensures forall x :: x in r <==> x in xs && x != v
    ensures |r| <= |xs|
    ensures v in xs ==> |r| < |xs|
  {
    if |xs| == 0 then []
    else (if xs[0] == v then [] else [xs[0]]) + RemoveAll(xs[1..], v)
  }

  /** The sorted distinct values of `xs`: the group keys `groupby` produces. */
  function SortedDistinct(xs: seq<int>): (r: seq<int>)
    ensures StrictlyIncreasing(r)
    ensures forall x :: x in r <==> x in xs
    decreases |xs|
  {
    if |xs| == 0 then []
    else
      var m := SeqMin(xs);
      var rest := SortedDistinct(RemoveAll(xs, m));
      assert forall x :: x in rest ==> m < x;
      [m] + rest
  }

  /** Two strictly increasing sequences with the same elements start with the least one. */
  lemma SameElementsSameHead(a: seq<int>, b: seq<int>)
    requires StrictlyIncreasing(a) && StrictlyIncreasing(b)
    requires forall x :: x in a <==> x in b
    requires |a| > 0 && |b| > 0
    ensures a[0] == b[0]
  {
    assert a[0] in a && b[0] in b;
    assert b[0] in a && a[0] in b;
    var i :| 0 <= i < |a| && a[i] == b[0];
    var j :| 0 <= j < |b| && b[j] == a[0];
    assert a[0] <= a[i] && b[0] <= b[j];
  }

  /** Removing the common least element leaves the same elements behind. */
  lemma SameElementsSameTail(a: seq<int>, b: seq<int>)
    requires StrictlyIncreasing(a) && StrictlyIncreasing(b)
    requires forall x :: x in a <==> x in b
    requires |a| > 0 && |b| > 0 && a[0] == b[0]
    ensures forall x :: x in a[1..] <==> x in b[1..]
  {
    forall x
      ensures x in a[1..] <==> x in b[1..]
    {
      if x in a[1..] {
        var i :| 1 <= i < |a| && a[i] == x;
        assert a[i] in a;
        var j :| 0 <= j < |b| && b[j] == x;
        assert j != 0 && b[1..][j - 1] == x;
      }
      if x in b[1..] {
        var j :| 1 <= j < |b| && b[j] == x;
        assert b[j] in b;
        var i :| 0 <= i < |a| && a[i] == x;
        assert i != 0 && a[1..][i - 1] == x;
      }
    }
  }

  /** A strictly increasing sequence is fixed by its set of elements. */
  lemma {:induction false} StrictlyIncreasingUnique(a: seq<int>, b: seq<int>)
    requires StrictlyIncreasing(a) && StrictlyIncreasing(b)
    requires forall x :: x in a <==> x in b
    ensures a == b
  {
    // A non-empty side shares its head with the other side, so both are empty or neither.
    if |a| > 0 {
      assert a[0] in a;
      assert a[0] in b;
    }
    if |b| > 0 {
      assert b[0] in b;
      assert b[0] in a;
    }
    if |a| > 0 {
      SameElementsSameHead(a, b);
      SameElementsSameTail(a, b);
      StrictlyIncreasingUnique(a[1..], b[1..]);
      assert a == [a[0]] + a[1..] && b == [b[0]] + b[1..];
    }
  }

  /** The quarter of every row label. */
  function QuarterLabels(index: seq<int>): (r: seq<int>)
    ensures |r| == |index| && forall i :: 0 <= i < |index| ==> r[i] == QuarterOf(index[i])
  {
    seq(|index|, i requires 0 <= i < |index| => QuarterOf(index[i]))
  }

  /** The rows whose label falls in quarter q, in their original order. */
  function GroupRows(index: seq<int>, rows: seq<seq<real>>, q: int): (g: seq<seq<real>>)
    requires |index| == |rows|
    ensures |g| <= |rows|
    ensures forall w: nat :: Rectangular(rows, w) ==> Rectangular(g, w)
    decreases |rows|
  {
    if |rows| == 0 then []
    else
      var n := |rows|;
      assert forall w: nat :: Rectangular(rows, w) ==> Rectangular(rows[..n - 1], w);
      GroupRows(index[..n - 1], rows[..n - 1], q) + (if QuarterOf(index[n - 1]) == q then [rows[n - 1]] else [])
  }

  /** The rows of months 3q - 2..3q (1-based) that exist among the given rows. */
  function QuarterMonths(rows: seq<seq<real>>, q: int): (m: seq<seq<real>>)
    requires q >= 1
    ensures forall w: nat :: Rectangular(rows, w) ==> Rectangular(m, w)
  {
    var n := |rows|;
    rows[(if 3 * q - 3 < n then 3 * q - 3 else n)..(if 3 * q < n then 3 * q else n)]
  }

  /** Dropping the last of n rows drops month n from its quarter's slice and leaves every
      other quarter's slice as it was. */
  lemma QuarterMonthsStep(rows: seq<seq<real>>, q: int)
    requires q >= 1 && |rows| > 0
    ensures QuarterMonths(rows, q)
         == QuarterMonths(rows[..|rows| - 1], q) + (if QuarterOf(|rows|) == q then [rows[|rows| - 1]] else [])
  {
    var n := |rows|;
    QuarterOfMonths(n, q);
    var lo := if 3 * q - 3 < n then 3 * q - 3 else n;
    var hi := if 3 * q < n then 3 * q else n;
    var lo' := if 3 * q - 3 < n - 1 then 3 * q - 3 else n - 1;
    var hi' := if 3 * q < n - 1 then 3 * q else n - 1;
    assert rows[..n - 1][lo'..hi'] == rows[lo'..hi'];
    if QuarterOf(n) == q {
      assert lo' == lo && hi == n && hi' == n - 1;
      assert rows[lo..n - 1] + [rows[n - 1]] == rows[lo..n];
    }
  }

  /** Rows of a frame whose labels are 1..n: quarter q is the slice of months 3q - 2..3q
      that exists. */
  lemma {:induction false} GroupOfMonthlyRows(rows: seq<seq<real>>, q: int)
    requires q >= 1
    ensures GroupRows(Range(1, |rows|), rows, q) == QuarterMonths(rows, q)
    decreases |rows|
  {
    var n := |rows|;
    if n > 0 {
      assert Range(1, n)[..n - 1] == Range(1, n - 1);
      assert Range(1, n)[n - 1] == n;
      GroupOfMonthlyRows(rows[..n - 1], q);
      QuarterMonthsStep(rows, q);
    }
  }

  /** Sum of column j over the rows. */
  function ColumnSum(rows: seq<seq<real>>, j: nat, width: nat): real
    requires Rectangular(rows, width) && j < width
  {
    if |rows| == 0 then 0.0 else ColumnSum(rows[..|rows| - 1], j, width) + rows[|rows| - 1][j]
  }

  /** `DataFrame.mean()` per column; a group drawn from a present key is never empty, so
      the empty case never arises in a summary. */
  function ColumnMeans(rows: seq<seq<real>>, width: nat): (r: seq<real>)
    requires Rectangular(rows, width)
    ensures |r| == width
  {
    seq(width, j requires 0 <= j < width =>
      if |rows| == 0 then 0.0 else ColumnSum(rows, j, width) / (|rows| as real))
  }

  /** A quarter that some row label falls in has at least one row. */
  lemma {:induction false} GroupRowsNonEmpty(index: seq<int>, rows: seq<seq<real>>, q: int)
    requires |index| == |rows|
    requires q in QuarterLabels(index)
    ensures |GroupRows(index, rows, q)| > 0
    decreases |rows|
  {
    var n := |rows|;
    if QuarterOf(index[n - 1]) != q {
      var i :| 0 <= i < n && QuarterLabels(index)[i] == q;
      assert QuarterLabels(index[..n - 1])[i] == q;
      GroupRowsNonEmpty(index[..n - 1], rows[..n - 1], q);
    }
  }

  /** The quarterly aggregate: one row per present quarter, ascending, each the column
      means of that quarter's rows. */
  function QuarterlyMeans(f: Frame): (r: Frame)
    requires WellFormed(f)
    ensures WellFormed(r) && r.columns == f.columns
    ensures r.index == SortedDistinct(QuarterLabels(f.index))
    ensures forall k :: 0 <= k < |r.index| ==>
              r.rows[k] == ColumnMeans(GroupRows(f.index, f.rows, r.index[k]), |f.columns|)
  {
    var keys := SortedDistinct(QuarterLabels(f.index));
    assert Rectangular(f.rows, |f.columns|);
    Frame(keys, f.columns,
          seq(|keys|, k requires 0 <= k < |keys| => ColumnMeans(GroupRows(f.index, f.rows, keys[k]), |f.columns|)))
  }

  /** Every quarter in the summary averages at least one row. */
  lemma SummaryGroupsNonEmpty(f: Frame)
    requires WellFormed(f)
    ensures forall k :: 0 <= k < |QuarterlyMeans(f).index| ==>
              |GroupRows(f.index, f.rows, QuarterlyMeans(f).index[k])| > 0
  {
    var keys := QuarterlyMeans(f).index;
    forall k | 0 <= k < |keys|
      ensures |GroupRows(f.index, f.rows, keys[k])| > 0
    {
      assert keys[k] in keys;
      GroupRowsNonEmpty(f.index, f.rows, keys[k]);
    }
  }

  /** `create_forecast_summary_table(forecast, quarters)`: the quarterly means when asked
      for and there are at least three rows; otherwise the forecast itself. */
  function SummaryTable(f: Frame, quarters: bool): (r: Frame)
    requires WellFormed(f)
    ensures !quarters || |f.rows| < 3 ==> r == f
    ensures quarters && |f.rows| >= 3 ==> r == QuarterlyMeans(f)
  {
    if quarters && |f.rows| >= 3 then QuarterlyMeans(f) else f
  }

  /** Months 1..n fall in exactly the quarters 1..ceil(n / 3). */
  lemma MonthlyQuarterLabels(n: nat)
    ensures forall x :: x in QuarterLabels(Range(1, n)) <==> x in Range(1, (n + 2) / 3)
  {
    var count := (n + 2) / 3;
    var labels := QuarterLabels(Range(1, n));
    assert 3 * count <= n + 2 < 3 * count + 3;
    forall x
      ensures x in labels <==> x in Range(1, count)
    {
      if x in labels {
        var i :| 0 <= i < n && labels[i] == x;
        QuarterOfMonths(i + 1, x);
        assert Range(1, count)[x - 1] == x;
      }
      if x in Range(1, count) {
        var i := 3 * x - 3;
        QuarterOfMonths(i + 1, x);
        assert labels[i] == x;
      }
    }
  }

  /** The group keys of months 1..n are 1, 2, ..., ceil(n / 3) in order. */
  lemma MonthlyQuarterKeys(n: nat)
    ensures SortedDistinct(QuarterLabels(Range(1, n))) == Range(1, (n + 2) / 3)
  {
    MonthlyQuarterLabels(n);
    StrictlyIncreasingUnique(SortedDistinct(QuarterLabels(Range(1, n))), Range(1, (n + 2) / 3));
  }

  /** One quarter of a monthly summary: the row for quarter q averages its months. */
  lemma MonthlyQuarterRow(f: Frame, q: int)
    requires WellFormed(f) && f.index == Range(1, |f.rows|)
    requires 1 <= q && q - 1 < |QuarterlyMeans(f).index| && QuarterlyMeans(f).index[q - 1] == q
    ensures Rectangular(f.rows, |f.columns|)
    ensures QuarterlyMeans(f).rows[q - 1] == ColumnMeans(QuarterMonths(f.rows, q), |f.columns|)
  {
    GroupOfMonthlyRows(f.rows, q);
  }

  /** For a forecast labelled 1..n with n >= 3, the summary has ceil(n / 3) quarters
      1, 2, ..., and quarter q is the column mean of months 3q - 2..3q (those that exist). */
  lemma MonthlySummaryQuarters(f: Frame)
    requires WellFormed(f) && |f.rows| >= 3 && f.index == Range(1, |f.rows|)
    ensures var r := SummaryTable(f, true);
            && r.index == Range(1, (|f.rows| + 2) / 3)
            && |r.rows| == (|f.rows| + 2) / 3
            && forall q :: 1 <= q <= |r.rows| ==> r.rows[q - 1] == ColumnMeans(QuarterMonths(f.rows, q), |f.columns|)
  {
    var n := |f.rows|;
    var count := (n + 2) / 3;
    assert Rectangular(f.rows, |f.columns|);
    MonthlyQuarterKeys(n);
    var r := QuarterlyMeans(f);
    assert r == SummaryTable(f, true);
    assert r.index == Range(1, count);
    forall q | 1 <= q <= count
      ensures r.rows[q - 1] == ColumnMeans(QuarterMonths(f.rows, q), |f.columns|)
    {
      assert r.index[q - 1] == q;
      MonthlyQuarterRow(f, q);
    }
  }
}

=== FILE: results.dfy ===
/** Optional values, the errors the wrapper raises, and a Result carrying either. */
module Results {

  /** Python's `None` or a present value. */
  datatype Option<+T> = None | Some(value: T) {

    /** The value, or `default` when absent. */
    function GetOr(default: T): T {
      match this
      case Some(v) => v
      case None => default
    }
  }

  /** The exceptions the modelled code lets escape, one constructor per cause. */
  datatype Error =
    | NotFitted                 // ValueError("Model must be fitted first. Call fit_model()")
    | EmptyCriteriaTable        // ValueError from min() over an empty criteria dict
    | EstimationFailed(lag: int)  // the library's fit raised at this lag order
    | MissingColumn             // KeyError from selecting absent columns
    | ShapeMismatch             // the DataFrame constructor rejected the forecast array
    | PositionOutOfBounds       // IndexError from .iloc[-1] on an empty frame
    | LibraryFailed             // the library's forecast, irf, fevd or summary routine raised
    | NothingToDescribe         // ValueError from describe() on a frame without columns

  /** A successful value or the error that aborted the call. */
  datatype Result<+T> = Ok(value: T) | Err(error: Error)
}

=== FILE: var_model.dfy ===
/** `VARModelBuilder` and `quick_forecast`: a builder is unfitted until `fit_model` stores a
    fit; every analysis call checks that first. The estimation library's fit, forecast,
    impulse-response, variance-decomposition and summary routines are parameters here,
    since their code is not part of this model. */
module VarModel {
  import opened Results
  import opened Frames
  import opened LagSelection

  const DefaultColumns: seq<string> := ["gdp_growth", "cpi_change", "yield_spread"]
  /** Lag order `fit_model` falls back to when neither a lag nor a vote is available. */
  const DefaultLag: int := 2
  const NotFittedMessage: string := "Model not yet fitted"

  /** What the library reports about one fit: its estimated coefficient matrices, which
      the forecast and the impulse analysis are computed from, and its statistics. */
  datatype FitStats = FitStats(coefficients: seq<seq<seq<real>>>, llf: real, aic: real, bic: real,
                               fpe: real, hqic: real, nobs: int)

  /** A fitted results object: its lag order `k_ar` and what the fit reported. */
  datatype FitResults = FitResults(kAr: int, stats: FitStats)

  /** The library's least-squares fit of the variable data at one lag order; None where it raises. */
  type Estimator = (Frame, int) -> Option<FitStats>

  /** The library's recursive forecast from a fit, the seed rows and the number of steps;
      None where it raises. */
  type ForecastEngine = (FitResults, seq<seq<real>>, int) -> Option<seq<seq<real>>>

  /** An array indexed by period, response variable and shock variable. */
  type Cube = seq<seq<seq<real>>>

  /** The library's impulse-response or variance-decomposition routine for a number of
      periods; None where it raises. */
  type PeriodAnalysis = (FitResults, int) -> Option<Cube>

  /** The library's textual summary of a fit; None where it raises. */
  type Renderer = FitResults -> Option<string>

  /** The builder's state; `results` is None until `fit_model` succeeds. */
  datatype Builder = Builder(data: Frame, columns: seq<string>, varData: Frame,
                             results: Option<FitResults>, optimalLag: Option<int>)

  /** A builder as `__init__` leaves it: a copy of the data, the chosen columns, nothing fitted. */
  predicate Initial(b: Builder) {
    b.results.None? && b.optimalLag.None?
  }

  /** The builder's own data invariant: `var_data` is the column selection of `data`. */
  predicate Coherent(b: Builder) {
    && WellFormed(b.data)
    && SelectColumns(b.data, b.columns) == Ok(b.varData)
  }

  /** `VARModelBuilder(data, variable_columns)`. */
  function NewBuilder(data: Frame, columns: Option<seq<string>>): (r: Result<Builder>)
    requires WellFormed(data)
    ensures r.Err? <==> exists n :: n in columns.GetOr(DefaultColumns) && n !in data.columns
    ensures r.Err? ==> r.error == MissingColumn
    ensures r.Ok? ==> Initial(r.value) && Coherent(r.value)
    ensures r.Ok? ==> r.value.data == data && r.value.columns == columns.GetOr(DefaultColumns)
  {
    var names := columns.GetOr(DefaultColumns);
    match SelectColumns(data, names)
    case Err(e) => Err(e)
    case Ok(v) => Ok(Builder(data, names, v, None, None))
  }

  function ScoresOf(st: FitStats): Scores {
    Scores(st.aic, st.bic, st.fpe, st.hqic)
  }

  /** The loop filling `criteria_results` for lags 1..n; the first lag whose fit raises
      aborts it. */
  function CriteriaResults(data: Frame, n: nat, estimate: Estimator): (r: Result<CriteriaTable>)
    ensures r.Ok? <==> forall lag :: 1 <= lag <= n ==> estimate(data, lag).Some?
    ensures r.Ok? ==> |r.value| == n
    ensures r.Ok? ==> forall i :: 0 <= i < n ==>
                        estimate(data, i + 1).Some? && r.value[i] == ScoresOf(estimate(data, i + 1).value)
    ensures r.Err? ==> && r.error.EstimationFailed?
                       && 1 <= r.error.lag <= n
                       && estimate(data, r.error.lag).None?
                       && forall lag :: 1 <= lag < r.error.lag ==> estimate(data, lag).Some?
  {
    if n == 0 then Ok([])
    else
      match CriteriaResults(data, n - 1, estimate)
      case Err(e) => Err(e)
      case Ok(t) =>
        match estimate(data, n)
        case None => Err(EstimationFailed(n))
        case Some(st) => Ok(t + [ScoresOf(st)])
  }

  /** The updated builder and the returned dictionary of `select_optimal_lag`. */
  datatype Selected = Selected(builder: Builder, selection: Selection)

  /** `select_optimal_lag(maxlags)`: fit every lag 1..maxlags, take each criterion's
      minimising lag and store the most suggested one as `optimal_lag`. */
  function SelectOptimalLag(b: Builder, maxlags: int, estimate: Estimator): (r: Result<Selected>)
    ensures maxlags < 1 ==> r == Err(EmptyCriteriaTable)
    ensures maxlags >= 1 ==> (r.Ok? <==> forall lag :: 1 <= lag <= maxlags ==> estimate(b.varData, lag).Some?)
    ensures r.Ok? ==> r.value.builder == b.(optimalLag := Some(r.value.selection.optimal))
    ensures r.Ok? ==> |r.value.selection.table| == maxlags && ValidSelection(r.value.selection.table, r.value.selection)
    ensures r.Ok? ==> forall i :: 0 <= i < maxlags ==>
                        estimate(b.varData, i + 1).Some? &&
                        r.value.selection.table[i] == ScoresOf(estimate(b.varData, i + 1).value)
  {
    match CriteriaResults(b.varData, if maxlags < 1 then 0 else maxlags, estimate)
    case Err(e) => Err(e)
    case Ok(t) =>
      match SelectFromTable(t)
      case Err(e) => Err(e)
      case Ok(sel) => Ok(Selected(b.(optimalLag := Some(sel.optimal)), sel))
  }

  /** Each criterion's suggestion lies in 1..maxlags and minimises that criterion over
      the fits of all tried lags, the smallest such lag on a tie. */
  lemma SuggestionMinimisesFittedScores(b: Builder, maxlags: int, estimate: Estimator, c: Criterion)
    requires SelectOptimalLag(b, maxlags, estimate).Ok?
    ensures var sel := SelectOptimalLag(b, maxlags, estimate).value.selection;
            var lag := sel.Suggestion(c);
            && 1 <= lag <= maxlags
            && 1 <= sel.optimal <= maxlags
            && estimate(b.varData, lag).Some?
            && (forall l :: 1 <= l <= maxlags ==>
                  estimate(b.varData, l).Some? &&
                  Score(ScoresOf(estimate(b.varData, lag).value), c) <= Score(ScoresOf(estimate(b.varData, l).value), c))
            && (forall l :: 1 <= l < lag ==>
                  estimate(b.varData, l).Some? &&
                  Score(ScoresOf(estimate(b.varData, lag).value), c) < Score(ScoresOf(estimate(b.varData, l).value), c))
  {
    var sel := SelectOptimalLag(b, maxlags, estimate).value.selection;
    var t := sel.table;
    var lag := sel.Suggestion(c);
    OptimalLagInRange(t, sel);
    SuggestionIsFirstArgMin(t, sel, c);
    forall l | 1 <= l <= maxlags
      ensures estimate(b.varData, l).Some?
      ensures Score(ScoresOf(estimate(b.varData, lag).value), c) <= Score(ScoresOf(estimate(b.varData, l).value), c)
    {
      assert t[l - 1] == ScoresOf(estimate(b.varData, l).value);
      assert t[lag - 1] == ScoresOf(estimate(b.varData, lag).value);
    }
    forall l | 1 <= l < lag
      ensures estimate(b.varData, l).Some?
      ensures Score(ScoresOf(estimate(b.varData, lag).value), c) < Score(ScoresOf(estimate(b.varData, l).value), c)
    {
      assert t[l - 1] == ScoresOf(estimate(b.varData, l).value);
      assert t[lag - 1] == ScoresOf(estimate(b.varData, lag).value);
    }
  }

  /** The lag `fit_model` uses: an explicit argument, else the voted lag, else 2. */
  function ResolveLag(requested: Option<int>, voted: Option<int>): int {
    if requested.Some? then requested.value
    else if voted.Some? then voted.value
    else DefaultLag
  }

  /** The builder after a call that mutates it, and the exception the call raised, if any:
      a method that raises part-way leaves the assignments it already made. */
  datatype FitOutcome = FitOutcome(builder: Builder, raised: Option<Error>)

  /** `fit_model(lag_order)`: fit at the resolved lag, store the results, then print the
      library's summary. A raising fit leaves the builder as it was; a raising summary
      leaves the results stored, though the call itself raises. Nothing else about the
      builder changes. */
  function FitModel(b: Builder, lagOrder: Option<int>, estimate: Estimator, render: Renderer): (r: FitOutcome)
    ensures var lag := ResolveLag(lagOrder, b.optimalLag);
            && (estimate(b.varData, lag).None? ==> r == FitOutcome(b, Some(EstimationFailed(lag))))
            && (estimate(b.varData, lag).Some? ==>
                  var fit := FitResults(lag, estimate(b.varData, lag).value);
                  && r.builder == b.(results := Some(fit))
                  && (r.raised.None? <==> render(fit).Some?)
                  && (r.raised.Some? ==> r.raised.value == LibraryFailed))
  {
    var lag := ResolveLag(lagOrder, b.optimalLag);
    match estimate(b.varData, lag)
    case None => FitOutcome(b, Some(EstimationFailed(lag)))
    case Some(st) =>
      var fitted := b.(results := Some(FitResults(lag, st)));
      match render(FitResults(lag, st))
      case None => FitOutcome(fitted, Some(LibraryFailed))
      case Some(_) => FitOutcome(fitted, None)
  }

  /** Lag priority of `fit_model`: an explicit lag wins over any vote; without one the
      stored vote is used; with neither the default 2. */
  lemma FitModelLagPriority(b: Builder, lagOrder: Option<int>, estimate: Estimator, render: Renderer)
    requires FitModel(b, lagOrder, estimate, render).raised.None?
    ensures FitModel(b, lagOrder, estimate, render).builder.results.Some?
    ensures var k := FitModel(b, lagOrder, estimate, render).builder.results.value.kAr;
            && (lagOrder.Some? ==> k == lagOrder.value)
            && (lagOrder.None? && b.optimalLag.Some? ==> k == b.optimalLag.value)
            && (lagOrder.None? && b.optimalLag.None? ==> k == DefaultLag)
  {
  }

  /** After `select_optimal_lag`, `fit_model()` without a lag fits the voted lag, which
      lies within 1..maxlags. */
  lemma FitAfterSelectUsesVote(b: Builder, maxlags: int, estimate: Estimator, render: Renderer)
    ensures SelectOptimalLag(b, maxlags, estimate).Ok? ==>
              var s := SelectOptimalLag(b, maxlags, estimate).value;
              && 1 <= s.selection.optimal <= maxlags
              && FitModel(s.builder, None, estimate, render).builder.results.Some?
              && FitModel(s.builder, None, estimate, render).builder.results.value.kAr == s.selection.optimal
  {
    if SelectOptimalLag(b, maxlags, estimate).Ok? {
      var s := SelectOptimalLag(b, maxlags, estimate).value;
      OptimalLagInRange(s.selection.table, s.selection);
    }
  }

  /** The dictionary `get_model_diagnostics` returns. */
  datatype Diagnostics = Diagnostics(logLikelihood: real, aic: real, bic: real, fpe: real,
                                     hqic: real, numObs: int, numParams: int)

  /** `get_model_diagnostics()`: refuses an unfitted builder; otherwise reports the fit's
      statistics and k_ar coefficients per variable plus one intercept per variable. */
  function GetModelDiagnostics(b: Builder): (r: Result<Diagnostics>)
    ensures r.Err? <==> b.results.None?
    ensures r.Err? ==> r.error == NotFitted
    ensures r.Ok? ==> var st := b.results.value.stats;
                      && r.value.numParams == (b.results.value.kAr + 1) * |b.columns|
                      && r.value.numObs == st.nobs && r.value.logLikelihood == st.llf
                      && r.value.aic == st.aic && r.value.bic == st.bic
                      && r.value.fpe == st.fpe && r.value.hqic == st.hqic
  {
    match b.results
    case None => Err(NotFitted)
    case Some(res) =>
      var k := |b.columns|;
      Ok(Diagnostics(res.stats.llf, res.stats.aic, res.stats.bic, res.stats.fpe, res.stats.hqic,
                     res.stats.nobs, res.kAr * k + k))
  }

  /** Diagnostics of a fresh fit: the statistics the library reported for the resolved lag,
      and (lag + 1) parameters per variable, whether or not the summary print raised. */
  lemma DiagnosticsOfFit(b: Builder, lagOrder: Option<int>, estimate: Estimator, render: Renderer)
    requires estimate(b.varData, ResolveLag(lagOrder, b.optimalLag)).Some?
    ensures var lag := ResolveLag(lagOrder, b.optimalLag);
            var st := estimate(b.varData, lag).value;
            var d := GetModelDiagnostics(FitModel(b, lagOrder, estimate, render).builder);
            && d.Ok?
            && d.value.numParams == lag * |b.columns| + |b.columns|
            && d.value.aic == st.aic && d.value.bic == st.bic && d.value.fpe == st.fpe && d.value.hqic == st.hqic
            && d.value.logLikelihood == st.llf && d.value.numObs == st.nobs
  {
    var fitted := FitModel(b, lagOrder, estimate, render).builder;
    assert fitted.columns == b.columns;
  }

  /** `var_data.values[-k_ar:]`: the rows the forecast starts from. */
  function ForecastSeed(b: Builder, fit: FitResults): seq<seq<real>> {
    PySliceFrom(b.varData.rows, -fit.kAr)
  }

  /** The seed is exactly the last k_ar rows when 1 <= k_ar <= the row count. With k_ar = 0
      Python's `-0` slice yields every row, and a k_ar beyond the row count also yields
      every row. */
  lemma ForecastSeedIsTail(b: Builder, fit: FitResults)
    ensures 1 <= fit.kAr <= |b.varData.rows| ==>
              |ForecastSeed(b, fit)| == fit.kAr &&
              ForecastSeed(b, fit) == b.varData.rows[|b.varData.rows| - fit.kAr..]
    ensures fit.kAr == 0 || fit.kAr > |b.varData.rows| ==> ForecastSeed(b, fit) == b.varData.rows
  {
  }

  /** A values array the DataFrame constructor accepts for `count` index labels and
      `width` column labels. */
  predicate HasShape(values: seq<seq<real>>, count: int, width: int) {
    && |values| == (if count < 0 then 0 else count)
    && Rectangular(values, width)
  }

  /** `forecast(steps)`: refuses an unfitted builder; otherwise one row per step, labelled
      1..steps, one column per variable column in order. The library's forecast may raise,
      the DataFrame constructor rejects an array of the wrong shape, and `describe()`
      rejects a frame without columns. */
  function Forecast(b: Builder, steps: int, engine: ForecastEngine): (r: Result<Frame>)
    ensures b.results.None? ==> r == Err(NotFitted)
    ensures b.results.Some? ==>
              var values := engine(b.results.value, ForecastSeed(b, b.results.value), steps);
              && (r.Ok? <==> values.Some? && HasShape(values.value, steps, |b.columns|) && |b.columns| > 0)
              && (values.None? ==> r == Err(LibraryFailed))
              && (values.Some? && !HasShape(values.value, steps, |b.columns|) ==> r == Err(ShapeMismatch))
              && (values.Some? && HasShape(values.value, steps, |b.columns|) && |b.columns| == 0 ==>
                    r == Err(NothingToDescribe))
    ensures r.Ok? ==> && WellFormed(r.value)
                      && r.value.index == Range(1, steps)
                      && |r.value.rows| == (if steps < 0 then 0 else steps)
                      && r.value.columns == b.columns
                      && Some(r.value.rows) == engine(b.results.value, ForecastSeed(b, b.results.value), steps)
  {
    match b.results
    case None => Err(NotFitted)
    case Some(res) =>
      match engine(res, ForecastSeed(b, res), steps)
      case None => Err(LibraryFailed)
      case Some(values) =>
        if !HasShape(values, steps, |b.columns|) then Err(ShapeMismatch)
        else if |b.columns| == 0 then Err(NothingToDescribe)
        else Ok(Frame(Range(1, steps), b.columns, values))
  }

  /** The dictionary `get_impulse_response` returns. */
  datatype ImpulseReport = ImpulseReport(irfs: Cube, variableNames: seq<string>, periods: int)

  /** `get_impulse_response(periods)`. */
  function GetImpulseResponse(b: Builder, periods: int, irf: PeriodAnalysis): (r: Result<ImpulseReport>)
    ensures r.Err? <==> b.results.None? || irf(b.results.value, periods).None?
    ensures r.Err? ==> r.error == (if b.results.None? then NotFitted else LibraryFailed)
    ensures r.Ok? ==> && Some(r.value.irfs) == irf(b.results.value, periods)
                      && r.value.variableNames == b.columns && r.value.periods == periods
  {
    match b.results
    case None => Err(NotFitted)
    case Some(res) =>
      match irf(res, periods)
      case None => Err(LibraryFailed)
      case Some(cube) => Ok(ImpulseReport(cube, b.columns, periods))
  }

  /** `get_forecast_error_variance_decomposition(periods)`. */
  function GetVarianceDecomposition(b: Builder, periods: int, fevd: PeriodAnalysis): (r: Result<Cube>)
    ensures r.Err? <==> b.results.None? || fevd(b.results.value, periods).None?
    ensures r.Err? ==> r.error == (if b.results.None? then NotFitted else LibraryFailed)
    ensures r.Ok? ==> Some(r.value) == fevd(b.results.value, periods)
  {
    match b.results
    case None => Err(NotFitted)
    case Some(res) =>
      match fevd(res, periods)
      case None => Err(LibraryFailed)
      case Some(cube) => Ok(cube)
  }

  /** `summary()`: a fixed message while unfitted, the library's text afterwards; only
      the library's rendering can raise. */
  function Summary(b: Builder, render: Renderer): (r: Result<string>)
    ensures b.results.None? ==> r == Ok(NotFittedMessage)
    ensures b.results.Some? ==> (r.Ok? <==> render(b.results.value).Some?)
    ensures b.results.Some? && r.Ok? ==> Some(r.value) == render(b.results.value)
    ensures r.Err? ==> r.error == LibraryFailed
  {
    match b.results
    case None => Ok(NotFittedMessage)
    case Some(res) =>
      match render(res)
      case None => Err(LibraryFailed)
      case Some(text) => Ok(text)
  }

  /** Until `fit_model` succeeds, every analysis call refuses and `summary` says so. */
  lemma UnfittedBuilderRefusesAnalysis(b: Builder, steps: int, periods: int, engine: ForecastEngine,
                                       irf: PeriodAnalysis, fevd: PeriodAnalysis, render: Renderer)
    requires b.results.None?
    ensures GetModelDiagnostics(b) == Err(NotFitted)
    ensures Forecast(b, steps, engine) == Err(NotFitted)
    ensures GetImpulseResponse(b, periods, irf) == Err(NotFitted)
    ensures GetVarianceDecomposition(b, periods, fevd) == Err(NotFitted)
    ensures Summary(b, render) == Ok(NotFittedMessage)
  {
  }

  /** Only `fit_model` sets `results`: a new builder has none, lag selection keeps
      whatever was there, and a fit sets them once the library fit succeeds, even if
      `fit_model` then raises while printing the summary. */
  lemma OnlyFitModelSetsResults(data: Frame, columns: Option<seq<string>>, b: Builder,
                                maxlags: int, lagOrder: Option<int>, estimate: Estimator, render: Renderer)
    requires WellFormed(data)
    ensures NewBuilder(data, columns).Ok? ==> NewBuilder(data, columns).value.results.None?
    ensures SelectOptimalLag(b, maxlags, estimate).Ok? ==>
              SelectOptimalLag(b, maxlags, estimate).value.builder.results == b.results
    ensures var fit := FitModel(b, lagOrder, estimate, render);
            && (estimate(b.varData, ResolveLag(lagOrder, b.optimalLag)).Some? ==> fit.builder.results.Some?)
            && (estimate(b.varData, ResolveLag(lagOrder, b.optimalLag)).None? ==> fit.builder == b && fit.raised.Some?)
  {
  }

  /** `quick_forecast`: a fresh builder, fitted at `lag_order`, forecast `steps` ahead. */
  function QuickForecast(data: Frame, steps: int, lagOrder: Option<int>, columns: Option<seq<string>>,
                         estimate: Estimator, render: Renderer, engine: ForecastEngine): (r: Result<Frame>)
    requires WellFormed(data)
    ensures (exists n :: n in columns.GetOr(DefaultColumns) && n !in data.columns) ==> r == Err(MissingColumn)
    ensures NewBuilder(data, columns).Ok? ==>
              var b := NewBuilder(data, columns).value;
              var lag := lagOrder.GetOr(DefaultLag);
              && (estimate(b.varData, lag).None? ==> r == Err(EstimationFailed(lag)))
              && (estimate(b.varData, lag).Some? && render(FitResults(lag, estimate(b.varData, lag).value)).None? ==>
                    r == Err(LibraryFailed))
              && (estimate(b.varData, lag).Some? && render(FitResults(lag, estimate(b.varData, lag).value)).Some? ==>
                    r == Forecast(b.(results := Some(FitResults(lag, estimate(b.varData, lag).value))), steps, engine))
    ensures r.Ok? ==> && NewBuilder(data, columns).Ok?
                      && var st := estimate(NewBuilder(data, columns).value.varData, lagOrder.GetOr(DefaultLag));
                         && st.Some?
                         && render(FitResults(lagOrder.GetOr(DefaultLag), st.value)).Some?
    ensures r.Ok? ==> && WellFormed(r.value)
                      && r.value.index == Range(1, steps)
                      && r.value.columns == columns.GetOr(DefaultColumns)
  {
    match NewBuilder(data, columns)
    case Err(e) => Err(e)
    case Ok(b) =>
      var fit := FitModel(b, lagOrder, estimate, render);
      match fit.raised
      case Some(e) => Err(e)
      case None => Forecast(fit.builder, steps, engine)
  }

  /** A quick forecast succeeds exactly when construction, the fit at `lag_order` (2 when
      None), its summary print and the forecast all succeed, and it is then the forecast of
      the builder fitted at that lag. */
  lemma QuickForecastFitsRequestedLag(data: Frame, steps: int, lagOrder: Option<int>, columns: Option<seq<string>>,
                                      estimate: Estimator, render: Renderer, engine: ForecastEngine)
    requires WellFormed(data)
    ensures QuickForecast(data, steps, lagOrder, columns, estimate, render, engine).Ok? <==>
              && NewBuilder(data, columns).Ok?
              && var b := NewBuilder(data, columns).value;
                 var lag := lagOrder.GetOr(DefaultLag);
                 && estimate(b.varData, lag).Some?
                 && render(FitResults(lag, estimate(b.varData, lag).value)).Some?
                 && Forecast(b.(results := Some(FitResults(lag, estimate(b.varData, lag).value))), steps, engine).Ok?
    ensures QuickForecast(data, steps, lagOrder, columns, estimate, render, engine).Ok? ==>
              var b := NewBuilder(data, columns).value;
              var st := estimate(b.varData, lagOrder.GetOr(DefaultLag)).value;
              var fitted := b.(results := Some(FitResults(lagOrder.GetOr(DefaultLag), st)));
              QuickForecast(data, steps, lagOrder, columns, estimate, render, engine) == Forecast(fitted, steps, engine)
  {
  }
}
